=== FILE: README.md ===
# github-activity: sort, group and render a user's public events

This project models, in Dafny, the core of a small command-line tool that
prints a GitHub user's recent public activity. The tool fetches the user's
event feed, orders the events by creation time, cuts the ordered sequence
into maximal runs of consecutive events that share an event type and an
actor login, and prints a summary. Some event types print one line for a
whole run (commit comments, wiki updates, pushes). Other listed types print
one line per event. Types the tool does not list print nothing. When there
are no events it prints a fixed message.

Modules, one per concern of `main.go` / `entities.go`:

- `Entities` (`entities.dfy`): the event records as immutable datatypes.
  The creation time is an `int`. The commit list is a `seq<Commit>`.
- `Sorting` (`sorting.dfy`): the `sort.Slice` call. `IsSortedPermutation`
  is the set of admissible outcomes. `SortByCreatedAt` (insertion sort) is
  one of them.
- `Grouping` (`grouping.dfy`): the run-splitting loop of `GroupEvents`,
  written as the recursive `Scan`, and the run properties it
  establishes.
- `Decimal` (`decimal.dfy`): natural numbers printed in decimal, standing
  in for the `%d` verb.
- `Lines` (`lines.dfy`): newline-terminated records and how to split them
  back.
- `Rendering` (`rendering.dfy`): `RepresentOutput`. The string switch on the
  type tag is the `Rule` datatype together with `RuleOf`.
- `Pipeline` (`pipeline.dfy`): sort, then group, then render.
- `Scenarios` (`scenarios.dfy`): worked inputs with the exact text the
  pipeline prints for them.

Three points about the code that the model keeps:

- `sort.Slice` is not stable. The model promises only a permutation whose
  creation times never decrease. It proves that all such outcomes agree on
  the timestamp at every position (`Sorting.SortedPermutationsAgreeOnTimes`).
  It also proves that the outcome is unique when equal timestamps imply
  equal events (`Sorting.SortedPermutationUnique`).
- An event of an unlisted type prints nothing, but it still ends the run it
  interrupts, because its type differs from its neighbours' (main.go:57-61).
  `Scenarios.UnlistedTypeSplitsRun` shows two pushes split this way printing
  two push lines.
- Every record ends with a newline, including the last one (main.go:85 and
  every other `Sprintf` of `RepresentOutput`).

The issue rule is selected by the tag `IssueEvent`, exactly as the code
spells it.

## Model

| member | source | states |
|---|---|---|
| Sorting.SortByCreatedAt | main.go:41-43 | the sorted events are a permutation (equal multisets) of the input whose creation times never decrease |
| Sorting.SortedPermutationsAgreeOnTimes | main.go:41-43 | any two sorted permutations of the same events have the same creation time at every position, so instability can only reorder events with equal timestamps |
| Sorting.SortedPermutationUnique | main.go:41-43 | when events sharing a creation time are identical, the sort has exactly one admissible outcome |
| Sorting.SortByCreatedAtCanonical | main.go:41-43 | under the same condition, every admissible outcome equals the model's insertion sort |
| Grouping.SameKey | main.go:57-58 | the grouping key: two events belong to the same run exactly when their type tags and actor logins are equal (a definition; it carries no contract) |
| Grouping.Scan | main.go:52-66 | the loop state (current run, unvisited events) yields groups that flatten to current run plus rest, start with the current run, are each non-empty, homogeneous and maximal, and are a single empty group only when nothing was seen |
| Grouping.GroupEvents | main.go:49-69 | concatenating the groups reproduces the input; empty input gives exactly one empty group; otherwise every group is non-empty, every event shares type and login with its group's first event, and adjacent groups differ in type or login at their boundary |
| Grouping.RunsUnique | main.go:49-69 | two groupings of the same events that both have the four run properties are equal |
| Grouping.GroupEventsIsTheRunPartition | main.go:49-69 | any grouping meeting the partition properties is exactly the one `GroupEvents` returns |
| Rendering.RuleOf | main.go:80-209 | the switch on the first event's type: a tag falls through to `Unlisted` exactly when it is none of the seventeen case strings, and it selects a one-line summary exactly for `CommitCommentEvent`, `GollumEvent` and `PushEvent` |
| Rendering.RuleOfTagOf | main.go:80-209 | each of the seventeen listed switch arms is selected by its own type tag |
| Rendering.TagOfRuleOf | main.go:80-209 | a type tag selects a listed arm only if it is that arm's tag; every other tag falls through the switch |
| Rendering.Description | main.go:87-208 | the fourteen per-event templates after the login: the text ends with the repository name, in parentheses for the create, delete, issue, member and pull-request arms and bare otherwise, and starts with the payload's action for every arm that copies it |
| Rendering.EventRecord | main.go:87-208 | a per-event record starts with `- `, the event's login and a space, and ends with the repository name as its template places it |
| Rendering.EventRecords | main.go:87-208 | a per-event arm prints one record per event of the group, in event order, each from that event's own fields |
| Rendering.CountedRecord | main.go:85 | the summary template (also lines 114 and 184): the record starts with `- `, the login and a space, and ends with the repository name in parentheses; which number it prints is stated by `Rendering.CountedRecordCount` |
| Rendering.CountedRecordCount | main.go:85 | between the `- {login} {verb} ` lead and the ` {noun} ({repo})` tail, a summary record holds a canonical decimal whose value is exactly the count passed in |
| Rendering.AggregateRecord | main.go:81-86 | the commit-comment, wiki (110-115) and push (180-185) summaries take login and repository from the group's first event: the record starts with that login and ends with that repository in parentheses |
| Rendering.Count | main.go:82 | what a summary counts: the group's size for commit comments and (line 111) wiki updates, the first event's commit list length for pushes (line 182); a definition, its meaning is stated by `Rendering.AggregateCount` |
| Rendering.AggregateCount | main.go:81-185 | the number printed between the verb and the noun reads back as the group size for commit-comment and wiki summaries and as the first event's commit count for push summaries |
| Rendering.RenderGroup | main.go:80-209 | one pass of the switch body: a group appends no text exactly when its first event's type is not one of the listed tags |
| Rendering.GroupRecords | main.go:80-210 | an aggregate arm prints exactly one record, `AggregateRecord` of the group, so the count it shows is the one `Rendering.AggregateCount` reads back; a per-event arm prints the per-event records; an unlisted type prints none |
| Rendering.RepresentOutput | main.go:72-213 | an empty first group gives exactly the no-activity message; otherwise the output is every group's records, each followed by a newline, and never equals the no-activity message |
| Rendering.RenderGroups | main.go:79-210 | the `for … output +=` loop: appending each group's text in turn equals the list of all groups' records, in order, each followed by a newline |
| Rendering.RenderGroupsAppend | main.go:79-212 | the output of a concatenation of group lists is the concatenation of their outputs |
| Rendering.GroupLines | main.go:81-208 | with newline-free fields, a group's text splits into exactly one line for an aggregate arm, one line per event for a per-event arm, and nothing for an unlisted type |
| Rendering.CountedRecordInjective | main.go:85 | two summary records that differ only in their count are different text |
| Rendering.CountedGroupBySize | main.go:81-86 | for commit-comment (and, lines 110-115, wiki) groups with the same first event, the texts are equal exactly when the group sizes are equal |
| Rendering.PushGroupUsesFirstEvent | main.go:180-185 | a push group prints the same text as its first event alone: the count is not summed over the group |
| Rendering.PushCountFaithful | main.go:180-185 | for pushes by the same login to the same repository, the texts are equal exactly when the first events carry the same number of commits |
| Rendering.PerEventGroupAppend | main.go:87-208 | splitting a per-event group into two parts of the same type does not change the printed text |
| Rendering.OutputLines | main.go:79-212 | with newline-free fields, the whole output splits into exactly the records of all groups |
| Decimal.FromNat | main.go:85 | the printed count is a non-empty digit string without leading zeros, one digit exactly for numbers below ten |
| Decimal.ValueOfFromNat | main.go:85 | reading back a printed count gives the count |
| Decimal.FromNatOfValue | main.go:85 | every canonical digit string is the printing of its value |
| Lines.SplitUnlines | main.go:85-86 | appending newline-terminated records and splitting at newlines recovers the records, when none contains a newline |
| Pipeline.Report | main.go:218-219 | grouping and rendering already sorted events give the no-activity message exactly when there are no events |
| Pipeline.RunPartitionRenderable | main.go:66 | the groups `GroupEvents` returns never make `RepresentOutput` index an empty slice, and the first group is empty exactly when there are no events |
| Pipeline.NoActivityIffNoEvents | main.go:73-74 | for every admissible sort outcome, the no-activity message is printed exactly when the feed is empty |
| Pipeline.Summarize | main.go:215-221 | sorting, grouping and rendering yield the no-activity message exactly for an empty feed |
| Pipeline.ReportLines | main.go:79-212 | with newline-free fields, the report has one line per aggregate group plus one per event of each per-event group, in order |
| Scenarios.SinglePush | main.go:180-185 | one push of three commits by alice to octo/demo prints `- alice pushed 3 commits (octo/demo)` |
| Scenarios.ThreeStars | main.go:202-208 | three stars by bob, given out of order, print one line each, oldest first |
| Scenarios.CommentsThenFork | main.go:81-109 | two commit comments then a fork by the same actor print a two-count summary and then a fork line |
| Scenarios.UnlistedTypeSplitsRun | main.go:57-61 | an unlisted event between two pushes prints nothing but splits them into two push summaries |

## Left out

- `GetUsername` (main.go:14-20): reads the process arguments and exits on a wrong count; process I/O.
- The HTTP request, body read and JSON decoding in `GetSortedEvents` (main.go:24-39): network and decoding; every failure there ends the process. The model starts from the decoded events.
- `time.Time`: creation times are integers and `Before` is `<`.
- `fmt.Sprintf`: replaced by string concatenation and `Decimal.FromNat` for `%d`.
- The `fmt.Println` in `main` (main.go:215-221) and the extra newline it adds: the I/O boundary.
- `Payload.Ref` and `Commit.SHA` are kept in the datatypes but nothing reads them.
- Sorting.SortByCreatedAt: the model's insertion sort is stable, so events with equal timestamps keep their input order. `sort.Slice` does not promise this, so every property of the pipeline that does not depend on the tie order is stated over all sorted permutations.
- Rendering.RepresentOutput: requires at least one group, and no empty group after a non-empty first one. On other inputs the Go code panics on an out-of-range index. `GroupEvents` never produces such input (`Pipeline.RunPartitionRenderable`).
- Rendering.GroupLines: the line counts assume the copied fields contain no newline. A login, repository name, ref type or action containing one would add lines.

=== FILE: decimal.dfy ===
/** Decimal rendering of natural numbers: the `%d` verb of the output
    templates, applied to group sizes and commit counts. */
module Decimal {

  predicate IsDigit(c: char) { '0' <= c <= '9' }

  predicate AllDigits(s: string) {
    forall i :: 0 <= i < |s| ==> IsDigit(s[i])
  }

  /** A digit string as `%d` prints it: non-empty, no leading zero unless
      it is the single digit `0`. */
  predicate Canonical(s: string) {
    && |s| > 0
    && AllDigits(s)
    && (s[0] == '0' ==> |s| == 1)
  }

  function DigitChar(d: nat): (c: char)
    requires d < 10
    ensures IsDigit(c)
  {
    "0123456789"[d]
  }

  function DigitValue(c: char): (d: nat)
    requires IsDigit(c)
    ensures d < 10
  {
    (c as int - '0' as int) as nat
  }

  /** The number a digit string denotes, most significant digit first. */
  function Value(s: string): nat
    requires AllDigits(s)
  {
    if |s| == 0 then 0
    else Value(s[..|s| - 1]) * 10 + DigitValue(s[|s| - 1])
  }

  /** The decimal representation of `n`. */
  function FromNat(n: nat): (r: string)
    ensures Canonical(r)
    ensures n < 10 <==> |r| == 1
    decreases n
  {
    if n < 10 then [DigitChar(n)]
    else FromNat(n / 10) + [DigitChar(n % 10)]
  }

  lemma DigitRoundTrip(d: nat)
    requires d < 10
    ensures DigitValue(DigitChar(d)) == d
  {
  }

  /** Reading back what `FromNat` printed yields the number printed. */
  lemma {:induction false} ValueOfFromNat(n: nat)
    ensures Value(FromNat(n)) == n
    decreases n
  {
    var r := FromNat(n);
    if n < 10 {
      DigitRoundTrip(n);
    } else {
      assert r[..|r| - 1] == FromNat(n / 10);
      ValueOfFromNat(n / 10);
      DigitRoundTrip(n % 10);
    }
  }

  /** Every canonical digit string is what `FromNat` prints for its value. */
  lemma {:induction false} FromNatOfValue(s: string)
    requires Canonical(s)
    ensures FromNat(Value(s)) == s
    decreases |s|
  {
    if |s| == 1 {
      var d := DigitValue(s[0]);
      assert Value(s) == d by { assert s[..0] == []; }
      assert FromNat(d) == [DigitChar(d)];
      assert DigitChar(d) == s[0];
    } else {
      var init := s[..|s| - 1];
      assert Canonical(init);
      FromNatOfValue(init);
      ValueNonZero(init);
      var d := DigitValue(s[|s| - 1]);
      assert Value(s) / 10 == Value(init) && Value(s) % 10 == d;
      assert DigitChar(d) == s[|s| - 1];
      assert s == init + [s[|s| - 1]];
    }
  }

  /** A canonical string of two or more digits denotes at least ten. */
  lemma {:induction false} ValueNonZero(s: string)
    requires Canonical(s)
    ensures |s| > 1 ==> Value(s) >= 10
    ensures s[0] != '0' ==> Value(s) > 0
    decreases |s|
  {
    if |s| > 1 {
      var init := s[..|s| - 1];
      assert Canonical(init);
      ValueNonZero(init);
    } else {
      assert s[..0] == [];
    }
  }

  /** Distinct numbers print differently. */
  lemma FromNatInjective(m: nat, n: nat)
    requires FromNat(m) == FromNat(n)
    ensures m == n
  {
    ValueOfFromNat(m);
    ValueOfFromNat(n);
  }
}

=== FILE: entities.dfy ===
/** The records decoded from the user-activity feed.

    Each Go struct becomes an immutable datatype; the JSON tags are dropped,
    the commit slice becomes a sequence and the creation time is abstracted
    to an integer timestamp (earlier instants are smaller integers). */
module Entities {

  datatype Commit = Commit(sha: string)

  datatype Payload = Payload(
    ref: string,
    refType: string,
    commits: seq<Commit>,
    action: string)

  datatype Actor = Actor(login: string)

  datatype Repo = Repo(name: string)

  /** One activity record. `eventType` is the feed's `type` tag. */
  datatype Event = Event(
    eventType: string,
    actor: Actor,
    repo: Repo,
    payload: Payload,
    createdAt: int)
  {
    /** The actor's login, the second half of the grouping key. */
    function Login(): string { actor.login }

    /** Number of commits carried by this event's payload. */
    function CommitCount(): nat { |payload.commits| }
  }
}

=== FILE: grouping.dfy ===
/** Splitting the ordered events into maximal consecutive runs that share
    an event type and an actor login (`GroupEvents` in main.go). */
module Grouping {
  import opened Entities

  /** The grouping key: same event type and same actor login. */
  predicate SameKey(a: Event, b: Event) {
    a.eventType == b.eventType && a.Login() == b.Login()
  }

  function Last<T>(s: seq<T>): T
    requires |s| > 0
  {
    s[|s| - 1]
  }

  /** The groups laid end to end. */
  function Flatten(groups: seq<seq<Event>>): seq<Event> {
    if |groups| == 0 then []
    else groups[0] + Flatten(groups[1..])
  }

  /** Every event of the group has the key of the group's first event. */
  predicate Homogeneous(g: seq<Event>) {
    forall i :: 0 <= i < |g| ==> SameKey(g[i], g[0])
  }

  predicate AllNonEmpty(groups: seq<seq<Event>>) {
    forall i :: 0 <= i < |groups| ==> |groups[i]| > 0
  }

  lemma AllNonEmptyAppend(a: seq<seq<Event>>, b: seq<seq<Event>>)
    requires AllNonEmpty(a) && AllNonEmpty(b)
    ensures AllNonEmpty(a + b)
  {
    forall i | 0 <= i < |a + b|
      ensures |(a + b)[i]| > 0
    {
      if i >= |a| {
        assert (a + b)[i] == b[i - |a|];
      }
    }
  }

  predicate AllHomogeneous(groups: seq<seq<Event>>) {
    forall i :: 0 <= i < |groups| ==> Homogeneous(groups[i])
  }

  /** Groups `i` and `i + 1` could not have been merged into one run. */
  predicate SplitsBetween(groups: seq<seq<Event>>, i: int)
    requires 0 <= i < |groups| - 1
  {
    |groups[i]| > 0 && |groups[i + 1]| > 0 ==>
      !SameKey(Last(groups[i]), groups[i + 1][0])
  }

  predicate Maximal(groups: seq<seq<Event>>) {
    forall i :: 0 <= i < |groups| - 1 ==> SplitsBetween(groups, i)
  }

  /** `groups` cuts non-empty `events` into maximal same-key runs, in order. */
  predicate IsRuns(events: seq<Event>, groups: seq<seq<Event>>) {
    && Flatten(groups) == events
    && AllNonEmpty(groups)
    && AllHomogeneous(groups)
    && Maximal(groups)
  }

  /** What `GroupEvents` promises: the runs of a non-empty input, and the
      single empty group for an empty input. */
  predicate IsRunPartition(events: seq<Event>, groups: seq<seq<Event>>) {
    if |events| == 0 then groups == [[]] else IsRuns(events, groups)
  }

  /** The scan of `GroupEvents`: `current` is the run being accumulated and
      `rest` the events not yet visited. */
  function Scan(current: seq<Event>, rest: seq<Event>): (groups: seq<seq<Event>>)
    requires Homogeneous(current)
    ensures |groups| > 0 && current <= groups[0]
    ensures Flatten(groups) == current + rest
    ensures |current| + |rest| == 0 ==> groups == [[]]
    ensures |current| + |rest| > 0 ==> AllNonEmpty(groups)
    ensures AllHomogeneous(groups)
    ensures Maximal(groups)
    decreases |rest|
  {
    if |rest| == 0 then
      [current]
    else if |current| == 0 then
      Scan([rest[0]], rest[1..])
    else if !SameKey(rest[0], Last(current)) then
      var tail := Scan([rest[0]], rest[1..]);
      assert current + rest == current + ([rest[0]] + rest[1..]);
      assert SplitsBetween([current] + tail, 0);
      assert forall i :: 1 <= i < |[current] + tail| - 1 ==>
        SplitsBetween([current] + tail, i) == SplitsBetween(tail, i - 1);
      [current] + tail
    else
      assert Homogeneous(current + [rest[0]]);
      assert current + rest == (current + [rest[0]]) + rest[1..];
      Scan(current + [rest[0]], rest[1..])
  }

  /** `GroupEvents`: start with an empty current run and scan all events. */
  function GroupEvents(events: seq<Event>): (groups: seq<seq<Event>>)
    ensures IsRunPartition(events, groups)
  {
    Scan([], events)
  }

  /** Non-empty groups hold at least one event each. */
  lemma {:induction false} FlattenLength(groups: seq<seq<Event>>)
    requires AllNonEmpty(groups)
    ensures |Flatten(groups)| >= |groups|
  {
    if |groups| > 0 {
      FlattenLength(groups[1..]);
    }
  }

  /** The first of the runs is the longest same-key prefix of the events. */
  lemma FirstRun(events: seq<Event>, groups: seq<seq<Event>>)
    requires |events| > 0 && IsRuns(events, groups)
    ensures |groups| > 0 && |groups[0]| <= |events|
    ensures groups[0] == events[..|groups[0]|]
    ensures forall i :: 0 <= i < |groups[0]| ==> SameKey(events[i], events[0])
    ensures |groups[0]| < |events| ==> !SameKey(events[|groups[0]|], events[0])
  {
    var g := groups[0];
    assert events == g + Flatten(groups[1..]);
    assert Homogeneous(g);
    if |g| < |events| {
      var tail := groups[1..];
      assert Flatten(tail) == events[|g|..];
      assert tail[0] == groups[1];
      assert Flatten(tail) == tail[0] + Flatten(tail[1..]);
      assert events[|g|] == groups[1][0];
      assert SplitsBetween(groups, 0);
    }
  }

  /** The tail of the runs is the runs of the remaining events. */
  lemma RestRuns(events: seq<Event>, groups: seq<seq<Event>>)
    requires |groups| > 0 && IsRuns(events, groups)
    ensures |groups[0]| <= |events|
    ensures IsRuns(events[|groups[0]|..], groups[1..])
  {
    var tail := groups[1..];
    assert events == groups[0] + Flatten(tail);
    assert forall i :: 0 <= i < |tail| - 1 ==>
      SplitsBetween(tail, i) == SplitsBetween(groups, i + 1);
  }

  /** The run decomposition of a sequence is unique: any two groupings with
      the four run properties coincide. */
  lemma {:induction false} RunsUnique(events: seq<Event>, g1: seq<seq<Event>>, g2: seq<seq<Event>>)
    requires IsRuns(events, g1) && IsRuns(events, g2)
    ensures g1 == g2
    decreases |events|
  {
    if |events| == 0 {
      FlattenLength(g1);
      FlattenLength(g2);
    } else {
      FirstRun(events, g1);
      FirstRun(events, g2);
      var n1 := |g1[0]|;
      var n2 := |g2[0]|;
      assert n1 == n2 && g1[0] == g2[0];
      RestRuns(events, g1);
      RestRuns(events, g2);
      RunsUnique(events[n1..], g1[1..], g2[1..]);
      assert g1 == [g1[0]] + g1[1..];
      assert g2 == [g2[0]] + g2[1..];
    }
  }

  /** `GroupEvents` returns the one and only grouping with the run properties. */
  lemma GroupEventsIsTheRunPartition(events: seq<Event>, groups: seq<seq<Event>>)
    requires IsRunPartition(events, groups)
    ensures groups == GroupEvents(events)
  {
    if |events| > 0 {
      RunsUnique(events, groups, GroupEvents(events));
    }
  }
}

=== FILE: lines.dfy ===
/** Newline-terminated records: the output text is built by appending one
    formatted record followed by `\n` at a time. */
module Lines {

  predicate SingleLine(s: string) {
    '\n' !in s
  }

  predicate AllSingleLine(lines: seq<string>) {
    forall i :: 0 <= i < |lines| ==> SingleLine(lines[i])
  }

  /** Each record followed by a newline, in order. */
  function Unlines(lines: seq<string>): string {
    if |lines| == 0 then ""
    else lines[0] + "\n" + Unlines(lines[1..])
  }

  /** Position of the first newline in `s`, or `|s|` when there is none. */
  function NewlineIndex(s: string): (k: nat)
    ensures k <= |s|
    ensures SingleLine(s[..k])
    ensures k < |s| ==> s[k] == '\n'
  {
    if |s| == 0 then 0
    else if s[0] == '\n' then 0
    else 1 + NewlineIndex(s[1..])
  }

  /** Cuts text at every newline. Each newline terminates the record before
      it; trailing text without a newline becomes a last record. */
  function SplitLines(s: string): seq<string>
    decreases |s|
  {
    if |s| == 0 then []
    else
      var k := NewlineIndex(s);
      if k == |s| then [s]
      else [s[..k]] + SplitLines(s[k + 1..])
  }

  /** The first newline of `line + "\n" + rest` is the one just after `line`. */
  lemma {:induction false} NewlineIndexAfterLine(line: string, rest: string)
    requires SingleLine(line)
    ensures NewlineIndex(line + "\n" + rest) == |line|
    decreases |line|
  {
    if |line| > 0 {
      assert (line + "\n" + rest)[1..] == line[1..] + "\n" + rest;
      NewlineIndexAfterLine(line[1..], rest);
    }
  }

  /** Appending record lists appends their texts. */
  lemma {:induction false} UnlinesAppend(a: seq<string>, b: seq<string>)
    ensures Unlines(a + b) == Unlines(a) + Unlines(b)
    decreases |a|
  {
    if |a| > 0 {
      assert (a + b)[1..] == a[1..] + b;
      UnlinesAppend(a[1..], b);
    } else {
      assert a + b == b;
    }
  }

  /** Splitting the text recovers exactly the records it was built from,
      provided no record contains a newline of its own. */
  lemma {:induction false} SplitUnlines(lines: seq<string>)
    requires AllSingleLine(lines)
    ensures SplitLines(Unlines(lines)) == lines
    decreases |lines|
  {
    if |lines| > 0 {
      var s := Unlines(lines);
      var rest := Unlines(lines[1..]);
      assert s == lines[0] + "\n" + rest;
      NewlineIndexAfterLine(lines[0], rest);
      assert s[..|lines[0]|] == lines[0];
      assert s[|lines[0]| + 1..] == rest;
      SplitUnlines(lines[1..]);
      assert lines == [lines[0]] + lines[1..];
    }
  }

  /** Text built from records that all start with `c` is empty or starts with `c`. */
  lemma UnlinesFirstChar(lines: seq<string>, c: char)
    requires forall i :: 0 <= i < |lines| ==> |lines[i]| > 0 && lines[i][0] == c
    ensures Unlines(lines) == "" || Unlines(lines)[0] == c
  {
  }
}

=== FILE: pipeline.dfy ===
/** The program's pipeline without its I/O: the decoded events are sorted,
    grouped and rendered (`main` in main.go, minus argument parsing, the
    HTTP fetch, JSON decoding and the final print). */
module Pipeline {
  import opened Entities
  import opened Lines
  import Sorting
  import opened Grouping
  import opened Rendering

  /** `GroupEvents` always hands `RepresentOutput` an input it can index. */
  lemma RunPartitionRenderable(events: seq<Event>, groups: seq<seq<Event>>)
    requires IsRunPartition(events, groups)
    ensures Renderable(groups)
    ensures |groups[0]| == 0 <==> |events| == 0
  {
    if |events| > 0 {
      FlattenLength(groups);
    }
  }

  /** Render the groups of an already sorted event sequence. */
  function Report(sorted: seq<Event>): (r: string)
    ensures |sorted| == 0 <==> r == NoActivityMessage
  {
    var groups := GroupEvents(sorted);
    RunPartitionRenderable(sorted, groups);
    RepresentOutput(groups)
  }

  /** The text `main` prints (before `Println` adds its newline), using the
      model's sort as the outcome of `sort.Slice`. */
  function Summarize(events: seq<Event>): (r: string)
    ensures |events| == 0 <==> r == NoActivityMessage
  {
    Report(Sorting.SortByCreatedAt(events))
  }

  /** Whatever order the unstable sort gives to equal timestamps, the fixed
      message appears exactly when the user has no events. */
  lemma NoActivityIffNoEvents(events: seq<Event>, sorted: seq<Event>)
    requires Sorting.IsSortedPermutation(events, sorted)
    ensures Report(sorted) == NoActivityMessage <==> |events| == 0
  {
    assert |sorted| == |multiset(sorted)| == |multiset(events)| == |events|;
  }

  /** How many records a non-empty group prints. */
  function RecordCount(g: seq<Event>): nat
    requires |g| > 0
  {
    var rule := RuleOf(g[0].eventType);
    if rule.Aggregate() then 1
    else if rule.PerEvent() then |g|
    else 0
  }

  function TotalRecordCount(groups: seq<seq<Event>>): nat
    requires AllNonEmpty(groups)
  {
    if |groups| == 0 then 0
    else RecordCount(groups[0]) + TotalRecordCount(groups[1..])
  }

  lemma {:induction false} AllRecordsCount(groups: seq<seq<Event>>)
    requires AllNonEmpty(groups)
    ensures |AllRecords(groups)| == TotalRecordCount(groups)
  {
    if |groups| > 0 {
      AllRecordsCount(groups[1..]);
    }
  }

  /** For a non-empty feed whose strings hold no newline, the report has one
      line per aggregate group plus one line per event of a per-event group,
      in order, and nothing for groups of other types. */
  lemma ReportLines(sorted: seq<Event>)
    requires |sorted| > 0
    requires forall e :: e in sorted ==> FieldsSingleLine(e)
    ensures AllNonEmpty(GroupEvents(sorted))
    ensures SplitLines(Report(sorted)) == AllRecords(GroupEvents(sorted))
    ensures |SplitLines(Report(sorted))| == TotalRecordCount(GroupEvents(sorted))
  {
    var groups := GroupEvents(sorted);
    RunPartitionRenderable(sorted, groups);
    forall i | 0 <= i < |groups|
      ensures GroupFieldsSingleLine(groups[i])
    {
      FlattenMember(groups, i);
      assert forall j :: 0 <= j < |groups[i]| ==> groups[i][j] in groups[i];
    }
    OutputLines(groups);
    AllRecordsCount(groups);
  }

  /** Every event of every group is an event of the flattened sequence. */
  lemma {:induction false} FlattenMember(groups: seq<seq<Event>>, i: nat)
    requires i < |groups|
    ensures forall e :: e in groups[i] ==> e in Flatten(groups)
  {
    if i > 0 {
      FlattenMember(groups[1..], i - 1);
    }
  }
}

=== FILE: rendering.dfy ===
/** Turning the groups into the printed summary (`RepresentOutput` in
    main.go). The first event of each group selects the rendering rule: an
    aggregate type prints one record for the whole group, a per-event type
    one record per event, and any other type prints nothing. Every record is
    followed by a newline. */
module Rendering {
  import opened Entities
  import opened Lines
  import Decimal
  import Grouping

  const NoActivityMessage: string := "Specified user has no public activity"

  /** The arms of the type switch, one per listed event type, plus
      `Unlisted` for every type the switch does not name. */
  datatype Rule =
    | CommentedCommit | UpdatedWiki | Pushed
    | Created | Deleted | Forked | CommentedIssue | Issue | Member | Public
    | PullRequest | PullRequestReview | PullRequestReviewComment
    | PullRequestReviewThread | Release | Sponsorship | Starred
    | Unlisted
  {
    /** The rule prints a single record for the whole group. */
    predicate Aggregate() {
      CommentedCommit? || UpdatedWiki? || Pushed?
    }

    /** The rule prints one record for every event of the group. */
    predicate PerEvent() {
      !Aggregate() && !Unlisted?
    }

    /** The record closes with the repository name in parentheses. */
    predicate RepoInParens() {
      || CommentedCommit? || UpdatedWiki? || Pushed? || Created? || Deleted?
      || CommentedIssue? || Issue? || Member? || PullRequest?
      || PullRequestReview? || PullRequestReviewComment? || PullRequestReviewThread?
    }

    /** A per-event rule whose record copies the payload's action right
        after the login. */
    predicate CopiesAction() {
      PerEvent() && !Created? && !Deleted? && !Forked? && !Starred?
    }
  }

  /** The seventeen type tags the switch names. */
  const ListedTags: set<string> := {
    "CommitCommentEvent", "CreateEvent", "DeleteEvent", "ForkEvent",
    "GollumEvent", "IssueCommentEvent", "IssueEvent", "MemberEvent",
    "PublicEvent", "PullRequestEvent", "PullRequestReviewEvent",
    "PullRequestReviewCommentEvent", "PullRequestReviewThreadEvent",
    "PushEvent", "ReleaseEvent", "SponsorshipEvent", "WatchEvent"
  }

  /** `s` ends with `suffix`. */
  predicate EndsWith(s: string, suffix: string) {
    |suffix| <= |s| && s[|s| - |suffix|..] == suffix
  }

  /** The switch on the type tag of a group's first event. */
  function RuleOf(t: string): (r: Rule)
    ensures r.Unlisted? <==> t !in ListedTags
    ensures r.Aggregate() <==> t == "CommitCommentEvent" || t == "GollumEvent" || t == "PushEvent"
  {
    match t
    case "CommitCommentEvent" => CommentedCommit
    case "CreateEvent" => Created
    case "DeleteEvent" => Deleted
    case "ForkEvent" => Forked
    case "GollumEvent" => UpdatedWiki
    case "IssueCommentEvent" => CommentedIssue
    case "IssueEvent" => Issue
    case "MemberEvent" => Member
    case "PublicEvent" => Public
    case "PullRequestEvent" => PullRequest
    case "PullRequestReviewEvent" => PullRequestReview
    case "PullRequestReviewCommentEvent" => PullRequestReviewComment
    case "PullRequestReviewThreadEvent" => PullRequestReviewThread
    case "PushEvent" => Pushed
    case "ReleaseEvent" => Release
    case "SponsorshipEvent" => Sponsorship
    case "WatchEvent" => Starred
    case _ => Unlisted
  }

  /** The type tag a listed rule is selected by. */
  function TagOf(rule: Rule): string
    requires !rule.Unlisted?
  {
    match rule
    case CommentedCommit => "CommitCommentEvent"
    case Created => "CreateEvent"
    case Deleted => "DeleteEvent"
    case Forked => "ForkEvent"
    case UpdatedWiki => "GollumEvent"
    case CommentedIssue => "IssueCommentEvent"
    case Issue => "IssueEvent"
    case Member => "MemberEvent"
    case Public => "PublicEvent"
    case PullRequest => "PullRequestEvent"
    case PullRequestReview => "PullRequestReviewEvent"
    case PullRequestReviewComment => "PullRequestReviewCommentEvent"
    case PullRequestReviewThread => "PullRequestReviewThreadEvent"
    case Pushed => "PushEvent"
    case Release => "ReleaseEvent"
    case Sponsorship => "SponsorshipEvent"
    case Starred => "WatchEvent"
  }

  /** Every listed rule is selected by its own tag. */
  lemma RuleOfTagOf(rule: Rule)
    requires !rule.Unlisted?
    ensures RuleOf(TagOf(rule)) == rule
  {
  }

  /** A tag selects a listed rule only if it is that rule's tag, so each of
      the seventeen tags has exactly one arm and no other tag has any. */
  lemma TagOfRuleOf(t: string)
    requires !RuleOf(t).Unlisted?
    ensures TagOf(RuleOf(t)) == t
  {
  }

  /** A suffix of `b` is a suffix of `a + b`. */
  lemma EndsWithAppend(a: string, b: string, c: string)
    requires EndsWith(b, c)
    ensures EndsWith(a + b, c)
  {
    assert (a + b)[|a + b| - |c|..] == b[|b| - |c|..];
  }

  /** The strings of an event that are copied into its record. */
  predicate FieldsSingleLine(e: Event) {
    && SingleLine(e.Login())
    && SingleLine(e.repo.name)
    && SingleLine(e.payload.refType)
    && SingleLine(e.payload.action)
  }

  /** What a per-event rule says about event `e` between the login and the
      repository; the wording comes from the rule, every field from `e`. */
  function Phrase(rule: Rule, e: Event): (r: string)
    requires rule.PerEvent()
    ensures rule.CopiesAction() ==> e.payload.action + " " <= r
  {
    var action := e.payload.action;
    match rule
    case Created => "created a " + e.payload.refType + " "
    case Deleted => "deleted a " + e.payload.refType + " "
    case Forked => "forked "
    case CommentedIssue => action + " comment on some issue"
    case Issue => action + " an issue "
    case Member => action + " collaboration "
    case Public => action + " "
    case PullRequest => action + " pull request "
    case PullRequestReview => action + " pull request review "
    case PullRequestReviewComment => action + " pull request review comment "
    case PullRequestReviewThread => action + " comment thread on pull request "
    case Release => action + " "
    case Sponsorship => action + " sponsorship listing on "
    case Starred => "starred "
  }

  /** How a record names the repository: in parentheses or bare. */
  function RepoMention(rule: Rule, repo: string): string {
    if rule.RepoInParens() then "(" + repo + ")" else repo
  }

  /** What a per-event rule says about event `e` after the login. */
  function Description(rule: Rule, e: Event): (r: string)
    requires rule.PerEvent()
    ensures rule.RepoInParens() ==> EndsWith(r, "(" + e.repo.name + ")")
    ensures !rule.RepoInParens() ==> EndsWith(r, e.repo.name)
    ensures rule.CopiesAction() ==> e.payload.action + " " <= r
  {
    var mention := RepoMention(rule, e.repo.name);
    EndsWithAppend(Phrase(rule, e), mention, mention);
    Phrase(rule, e) + mention
  }

  /** The record a per-event rule prints for event `e`. */
  function EventRecord(rule: Rule, e: Event): (r: string)
    requires rule.PerEvent()
    ensures "- " + e.Login() + " " <= r
    ensures rule.RepoInParens() ==> EndsWith(r, "(" + e.repo.name + ")")
    ensures !rule.RepoInParens() ==> EndsWith(r, e.repo.name)
  {
    var lead := "- " + e.Login() + " ";
    EndsWithAppend(lead, Description(rule, e), RepoMention(rule, e.repo.name));
    lead + Description(rule, e)
  }

  /** The records of a per-event group, one per event and in event order. */
  function EventRecords(rule: Rule, events: seq<Event>): (r: seq<string>)
    requires rule.PerEvent()
    ensures |r| == |events|
    ensures forall i :: 0 <= i < |events| ==> r[i] == EventRecord(rule, events[i])
  {
    if |events| == 0 then []
    else [EventRecord(rule, events[0])] + EventRecords(rule, events[1..])
  }

  /** A summary record: `- {login} {verb} {count} {noun} ({repo})`. */
  function CountedRecord(login: string, verb: string, count: nat, noun: string, repo: string): (r: string)
    ensures "- " + login + " " <= r
    ensures EndsWith(r, "(" + repo + ")")
  {
    var body := "- " + login + " " + verb + " " + Decimal.FromNat(count) + " " + noun + " ";
    assert body + ("(" + repo + ")") == body + "(" + repo + ")";
    EndsWithAppend(body, "(" + repo + ")", "(" + repo + ")");
    "- " + login + " " + verb + " " + Decimal.FromNat(count) + " " + noun + " (" + repo + ")"
  }

  /** The wording of a summary record around its count. */
  function Verb(rule: Rule): string
    requires rule.Aggregate()
  {
    match rule
    case CommentedCommit => "commented commit"
    case UpdatedWiki => "updated wiki"
    case Pushed => "pushed"
  }

  function Noun(rule: Rule): string {
    if rule.Pushed? then "commits" else "times"
  }

  /** What a summary counts: the pushed commits of the first event for a
      push, the events of the group otherwise. */
  function Count(rule: Rule, g: seq<Event>): nat
    requires |g| > 0
  {
    if rule.Pushed? then g[0].CommitCount() else |g|
  }

  /** The record an aggregate rule prints for the whole group, taking login
      and repository from the first event. */
  function AggregateRecord(rule: Rule, g: seq<Event>): (r: string)
    requires rule.Aggregate() && |g| > 0
    ensures "- " + g[0].Login() + " " <= r
    ensures EndsWith(r, "(" + g[0].repo.name + ")")
  {
    CountedRecord(g[0].Login(), Verb(rule), Count(rule, g), Noun(rule), g[0].repo.name)
  }

  /** The records one group contributes, chosen by its first event's type. */
  function GroupRecords(g: seq<Event>): (r: seq<string>)
    requires |g| > 0
    ensures RuleOf(g[0].eventType).Aggregate() ==> |r| == 1 && "- " + g[0].Login() + " " <= r[0]
    ensures RuleOf(g[0].eventType).Aggregate() ==> r == [AggregateRecord(RuleOf(g[0].eventType), g)]
    ensures RuleOf(g[0].eventType).PerEvent() ==> r == EventRecords(RuleOf(g[0].eventType), g)
    ensures RuleOf(g[0].eventType).Unlisted? ==> r == []
  {
    var rule := RuleOf(g[0].eventType);
    if rule.Aggregate() then [AggregateRecord(rule, g)]
    else if rule.PerEvent() then EventRecords(rule, g)
    else []
  }

  /** The text one group appends to the output. */
  function RenderGroup(g: seq<Event>): (r: string)
    requires |g| > 0
    ensures r == "" <==> RuleOf(g[0].eventType).Unlisted?
  {
    Unlines(GroupRecords(g))
  }

  /** The loop over the groups: each group's text, in group order. */
  function RenderGroups(groups: seq<seq<Event>>): (r: string)
    requires Grouping.AllNonEmpty(groups)
    ensures r == Unlines(AllRecords(groups))
  {
    if |groups| == 0 then ""
    else
      UnlinesAppend(GroupRecords(groups[0]), AllRecords(groups[1..]));
      RenderGroup(groups[0]) + RenderGroups(groups[1..])
  }

  /** All records of all groups, in output order. */
  function AllRecords(groups: seq<seq<Event>>): seq<string>
    requires Grouping.AllNonEmpty(groups)
  {
    if |groups| == 0 then []
    else GroupRecords(groups[0]) + AllRecords(groups[1..])
  }

  /** Every printed record starts with the list marker `-`. */
  lemma {:induction false} AllRecordsStartWithDash(groups: seq<seq<Event>>)
    requires Grouping.AllNonEmpty(groups)
    ensures forall i :: 0 <= i < |AllRecords(groups)| ==>
      |AllRecords(groups)[i]| > 0 && AllRecords(groups)[i][0] == '-'
  {
    if |groups| > 0 {
      AllRecordsStartWithDash(groups[1..]);
      var head := GroupRecords(groups[0]);
      var rest := AllRecords(groups[1..]);
      forall i | 0 <= i < |head|
        ensures |head[i]| > 0 && head[i][0] == '-'
      {
        var rule := RuleOf(groups[0][0].eventType);
        if rule.PerEvent() {
          assert head[i] == EventRecord(rule, groups[0][i]);
        }
      }
      assert AllRecords(groups) == head + rest;
    }
  }

  /** What `RepresentOutput` needs to avoid indexing an empty slice: at least
      one group, and no empty group unless the first one is. */
  predicate Renderable(groups: seq<seq<Event>>) {
    |groups| > 0 && (|groups[0]| > 0 ==> Grouping.AllNonEmpty(groups))
  }

  /** `RepresentOutput`: the fixed message when the first group is empty,
      otherwise every group's records, each terminated by a newline. */
  function RepresentOutput(groups: seq<seq<Event>>): (r: string)
    requires Renderable(groups)
    ensures |groups[0]| == 0 ==> r == NoActivityMessage
    ensures |groups[0]| > 0 ==> r == Unlines(AllRecords(groups)) && r != NoActivityMessage
  {
    if |groups[0]| == 0 then
      NoActivityMessage
    else
      AllRecordsStartWithDash(groups);
      UnlinesFirstChar(AllRecords(groups), '-');
      RenderGroups(groups)
  }

  /** The records of a concatenation of group lists, list by list. */
  lemma {:induction false} AllRecordsAppend(a: seq<seq<Event>>, b: seq<seq<Event>>)
    requires Grouping.AllNonEmpty(a) && Grouping.AllNonEmpty(b)
    ensures Grouping.AllNonEmpty(a + b)
    ensures AllRecords(a + b) == AllRecords(a) + AllRecords(b)
    decreases |a|
  {
    Grouping.AllNonEmptyAppend(a, b);
    if |a| == 0 {
      assert a + b == b;
    } else {
      assert (a + b)[0] == a[0];
      assert (a + b)[1..] == a[1..] + b;
      AllRecordsAppend(a[1..], b);
      var head := GroupRecords(a[0]);
      assert AllRecords(a + b) == head + (AllRecords(a[1..]) + AllRecords(b));
      assert head + (AllRecords(a[1..]) + AllRecords(b))
        == (head + AllRecords(a[1..])) + AllRecords(b);
    }
  }

  /** Rendering distributes over concatenation of group lists. */
  lemma RenderGroupsAppend(a: seq<seq<Event>>, b: seq<seq<Event>>)
    requires Grouping.AllNonEmpty(a) && Grouping.AllNonEmpty(b)
    ensures Grouping.AllNonEmpty(a + b)
    ensures RenderGroups(a + b) == RenderGroups(a) + RenderGroups(b)
  {
    AllRecordsAppend(a, b);
    UnlinesAppend(AllRecords(a), AllRecords(b));
  }

  /** A per-event phrase is a single line when the fields it copies are. */
  lemma PhraseSingleLine(rule: Rule, e: Event)
    requires rule.PerEvent() && FieldsSingleLine(e)
    ensures SingleLine(Phrase(rule, e))
  {
  }

  /** A per-event record is a single line when the fields it copies are. */
  lemma EventRecordSingleLine(rule: Rule, e: Event)
    requires rule.PerEvent() && FieldsSingleLine(e)
    ensures SingleLine(EventRecord(rule, e))
  {
    PhraseSingleLine(rule, e);
    var mention := RepoMention(rule, e.repo.name);
    assert SingleLine(mention);
    assert EventRecord(rule, e) == "- " + e.Login() + " " + (Phrase(rule, e) + mention);
  }

  /** A summary record is a single line when the strings it copies are. */
  lemma CountedRecordSingleLine(login: string, verb: string, count: nat, noun: string, repo: string)
    requires SingleLine(login) && SingleLine(verb) && SingleLine(noun) && SingleLine(repo)
    ensures SingleLine(CountedRecord(login, verb, count, noun, repo))
  {
    FromNatSingleLine(count);
  }

  lemma FromNatSingleLine(n: nat)
    ensures SingleLine(Decimal.FromNat(n))
  {
    var d := Decimal.FromNat(n);
    assert forall i :: 0 <= i < |d| ==> d[i] != '\n';
  }

  /** Every event of the group copies only single-line strings. */
  predicate GroupFieldsSingleLine(g: seq<Event>) {
    forall i :: 0 <= i < |g| ==> FieldsSingleLine(g[i])
  }

  /** Every record of a group is a single line when the copied fields are. */
  lemma GroupRecordsSingleLine(g: seq<Event>)
    requires |g| > 0 && GroupFieldsSingleLine(g)
    ensures AllSingleLine(GroupRecords(g))
  {
    var rule := RuleOf(g[0].eventType);
    if rule.Aggregate() {
      var first := g[0];
      assert FieldsSingleLine(first);
      match rule
      case CommentedCommit =>
        CountedRecordSingleLine(first.Login(), "commented commit", |g|, "times", first.repo.name);
      case UpdatedWiki =>
        CountedRecordSingleLine(first.Login(), "updated wiki", |g|, "times", first.repo.name);
      case Pushed =>
        CountedRecordSingleLine(first.Login(), "pushed", first.CommitCount(), "commits", first.repo.name);
    } else if rule.PerEvent() {
      forall i | 0 <= i < |g|
        ensures SingleLine(GroupRecords(g)[i])
      {
        EventRecordSingleLine(rule, g[i]);
      }
    }
  }

  /** The text of a group splits into exactly: one line for an aggregate
      type, one line per event (in event order) for a per-event type, and
      no line for any other type. */
  lemma GroupLines(g: seq<Event>)
    requires |g| > 0 && GroupFieldsSingleLine(g)
    ensures SplitLines(RenderGroup(g)) == GroupRecords(g)
    ensures RuleOf(g[0].eventType).Aggregate() ==> |SplitLines(RenderGroup(g))| == 1
    ensures RuleOf(g[0].eventType).PerEvent() ==>
      SplitLines(RenderGroup(g)) == EventRecords(RuleOf(g[0].eventType), g)
    ensures RuleOf(g[0].eventType).Unlisted? ==> RenderGroup(g) == ""
  {
    GroupRecordsSingleLine(g);
    SplitUnlines(GroupRecords(g));
  }

  /** Texts that agree outside a middle part of equal length agree in it. */
  lemma MiddleDetermined(prefix: string, x: string, y: string, suffix: string)
    requires prefix + x + suffix == prefix + y + suffix
    ensures x == y
  {
    assert |x| == |y|;
    assert x == (prefix + x + suffix)[|prefix|..|prefix| + |x|];
    assert y == (prefix + y + suffix)[|prefix|..|prefix| + |y|];
  }

  /** Two summary records that differ only in their count differ. */
  lemma CountedRecordInjective(login: string, verb: string, m: nat, n: nat, noun: string, repo: string)
    requires CountedRecord(login, verb, m, noun, repo) == CountedRecord(login, verb, n, noun, repo)
    ensures m == n
  {
    var prefix := "- " + login + " " + verb + " ";
    var suffix := " " + noun + " (" + repo + ")";
    var dm := Decimal.FromNat(m);
    var dn := Decimal.FromNat(n);
    assert CountedRecord(login, verb, m, noun, repo) == prefix + dm + suffix;
    assert CountedRecord(login, verb, n, noun, repo) == prefix + dn + suffix;
    MiddleDetermined(prefix, dm, dn, suffix);
    Decimal.FromNatInjective(m, n);
  }

  /** The text strictly between `prefix` and `suffix` in `r`. */
  function Between(r: string, prefix: string, suffix: string): string
    requires |prefix| + |suffix| <= |r|
  {
    r[|prefix|..|r| - |suffix|]
  }

  /** The number a summary record prints reads back as its count: between
      the `- {login} {verb} ` lead and the ` {noun} ({repo})` tail stands a
      canonical decimal whose value is `count`. */
  lemma CountedRecordCount(login: string, verb: string, count: nat, noun: string, repo: string)
    ensures var r := CountedRecord(login, verb, count, noun, repo);
      var prefix := "- " + login + " " + verb + " ";
      var suffix := " " + noun + " (" + repo + ")";
      && |prefix| + |suffix| <= |r| && prefix <= r && EndsWith(r, suffix)
      && Decimal.Canonical(Between(r, prefix, suffix))
      && Decimal.Value(Between(r, prefix, suffix)) == count
  {
    var prefix := "- " + login + " " + verb + " ";
    var suffix := " " + noun + " (" + repo + ")";
    var d := Decimal.FromNat(count);
    var r := CountedRecord(login, verb, count, noun, repo);
    assert r == prefix + d + suffix;
    assert Between(r, prefix, suffix) == d;
    assert r[|r| - |suffix|..] == suffix;
    Decimal.ValueOfFromNat(count);
  }

  /** A commit-comment or wiki summary prints the size of the group; a push
      summary prints the number of commits of the group's first event. */
  lemma AggregateCount(rule: Rule, g: seq<Event>)
    requires rule.Aggregate() && |g| > 0
    ensures var r := AggregateRecord(rule, g);
      var prefix := "- " + g[0].Login() + " " + Verb(rule) + " ";
      var suffix := " " + Noun(rule) + " (" + g[0].repo.name + ")";
      && |prefix| + |suffix| <= |r| && prefix <= r && EndsWith(r, suffix)
      && Decimal.Canonical(Between(r, prefix, suffix))
      && Decimal.Value(Between(r, prefix, suffix)) == (if rule.Pushed? then g[0].CommitCount() else |g|)
  {
    CountedRecordCount(g[0].Login(), Verb(rule), Count(rule, g), Noun(rule), g[0].repo.name);
  }

  /** Commit-comment and wiki summaries depend on the group only through its
      first event and its size, and different sizes print differently. */
  lemma CountedGroupBySize(g: seq<Event>, h: seq<Event>)
    requires |g| > 0 && |h| > 0 && g[0] == h[0]
    requires RuleOf(g[0].eventType) == CommentedCommit || RuleOf(g[0].eventType) == UpdatedWiki
    ensures RenderGroup(g) == RenderGroup(h) <==> |g| == |h|
  {
    if RenderGroup(g) == RenderGroup(h) {
      var rg := GroupRecords(g)[0];
      var rh := GroupRecords(h)[0];
      assert Unlines(GroupRecords(g)) == rg + "\n";
      assert Unlines(GroupRecords(h)) == rh + "\n";
      assert rg == (rg + "\n")[..|rg|];
      assert rh == (rh + "\n")[..|rh|];
      var verb := if RuleOf(g[0].eventType) == UpdatedWiki then "updated wiki" else "commented commit";
      CountedRecordInjective(g[0].Login(), verb, |g|, |h|, "times", g[0].repo.name);
    }
  }

  /** A push group is summarised by its first event alone: the count is that
      event's commits, not a sum over the group. */
  lemma PushGroupUsesFirstEvent(g: seq<Event>)
    requires |g| > 0 && RuleOf(g[0].eventType) == Pushed
    ensures RenderGroup(g) == RenderGroup([g[0]])
  {
  }

  /** Pushes with different commit counts print differently. */
  lemma PushCountFaithful(e: Event, f: Event)
    requires RuleOf(e.eventType) == Pushed && RuleOf(f.eventType) == Pushed
    requires e.Login() == f.Login() && e.repo == f.repo
    ensures RenderGroup([e]) == RenderGroup([f]) <==> e.CommitCount() == f.CommitCount()
  {
    if RenderGroup([e]) == RenderGroup([f]) {
      var re := GroupRecords([e])[0];
      var rf := GroupRecords([f])[0];
      assert re == CountedRecord(e.Login(), "pushed", e.CommitCount(), "commits", e.repo.name);
      assert rf == CountedRecord(f.Login(), "pushed", f.CommitCount(), "commits", f.repo.name);
      assert Unlines(GroupRecords([e])) == re + "\n";
      assert Unlines(GroupRecords([f])) == rf + "\n";
      assert re == (re + "\n")[..|re|];
      assert rf == (rf + "\n")[..|rf|];
      CountedRecordInjective(e.Login(), "pushed", e.CommitCount(), f.CommitCount(), "commits", e.repo.name);
    }
  }

  /** A per-event group prints the concatenation of its parts: splitting the
      group does not change the text. */
  lemma PerEventGroupAppend(g: seq<Event>, h: seq<Event>)
    requires |g| > 0 && |h| > 0 && g[0].eventType == h[0].eventType
    requires RuleOf(g[0].eventType).PerEvent()
    ensures RenderGroup(g + h) == RenderGroup(g) + RenderGroup(h)
  {
    var t := RuleOf(g[0].eventType);
    assert (g + h)[0] == g[0];
    forall i | 0 <= i < |g| + |h|
      ensures EventRecords(t, g + h)[i] == (EventRecords(t, g) + EventRecords(t, h))[i]
    {
      if i < |g| {
        assert (g + h)[i] == g[i];
      } else {
        assert (g + h)[i] == h[i - |g|];
      }
    }
    assert EventRecords(t, g + h) == EventRecords(t, g) + EventRecords(t, h);
    UnlinesAppend(EventRecords(t, g), EventRecords(t, h));
  }

  /** The whole output splits into exactly the records of all groups. */
  lemma OutputLines(groups: seq<seq<Event>>)
    requires Renderable(groups) && |groups[0]| > 0
    requires forall i :: 0 <= i < |groups| ==> GroupFieldsSingleLine(groups[i])
    ensures SplitLines(RepresentOutput(groups)) == AllRecords(groups)
  {
    AllRecordsSingleLine(groups);
    SplitUnlines(AllRecords(groups));
  }

  lemma {:induction false} AllRecordsSingleLine(groups: seq<seq<Event>>)
    requires Grouping.AllNonEmpty(groups)
    requires forall i :: 0 <= i < |groups| ==> GroupFieldsSingleLine(groups[i])
    ensures AllSingleLine(AllRecords(groups))
  {
    if |groups| > 0 {
      GroupRecordsSingleLine(groups[0]);
      AllRecordsSingleLine(groups[1..]);
    }
  }
}

=== FILE: scenarios.dfy ===
/** Worked inputs for the pipeline, each with the exact text it prints. */
module Scenarios {
  import opened Entities
  import opened Lines
  import Sorting
  import opened Grouping
  import opened Rendering
  import opened Pipeline

  function MakeEvent(t: string, login: string, repo: string, commits: nat, time: int): Event {
    Event(t, Actor(login), Repo(repo), Payload("", "", seq(commits, _ => Commit("")), ""), time)
  }

  /** Assembles a scenario from its sorted order, its groups and its records. */
  lemma SummaryFrom(events: seq<Event>, sorted: seq<Event>, groups: seq<seq<Event>>, records: seq<string>)
    requires |events| > 0
    requires Sorting.SortByCreatedAt(events) == sorted
    requires GroupEvents(sorted) == groups
    requires AllNonEmpty(groups) && AllRecords(groups) == records
    ensures Summarize(events) == Unlines(records)
  {
    RunPartitionRenderable(sorted, groups);
  }

  lemma AllRecordsCons(g: seq<Event>, rest: seq<seq<Event>>)
    requires |g| > 0 && AllNonEmpty(rest)
    ensures AllNonEmpty([g] + rest)
    ensures AllRecords([g] + rest) == GroupRecords(g) + AllRecords(rest)
  {
    assert ([g] + rest)[0] == g;
    assert ([g] + rest)[1..] == rest;
  }

  lemma AllRecordsOne(g: seq<Event>)
    requires |g| > 0
    ensures AllRecords([g]) == GroupRecords(g)
  {
    AllRecordsCons(g, []);
    assert [g] + [] == [g];
  }

  lemma AllRecordsTwo(g: seq<Event>, h: seq<Event>)
    requires |g| > 0 && |h| > 0
    ensures AllRecords([g, h]) == GroupRecords(g) + GroupRecords(h)
  {
    AllRecordsOne(h);
    AllRecordsCons(g, [h]);
    assert [g] + [h] == [g, h];
  }

  lemma AllRecordsThree(g: seq<Event>, h: seq<Event>, k: seq<Event>)
    requires |g| > 0 && |h| > 0 && |k| > 0
    ensures AllRecords([g, h, k]) == GroupRecords(g) + (GroupRecords(h) + GroupRecords(k))
  {
    AllRecordsTwo(h, k);
    AllRecordsCons(g, [h, k]);
    assert [g] + [h, k] == [g, h, k];
  }

  /** Events already in strictly increasing time order are left in place. */
  lemma SortedThree(a: Event, b: Event, c: Event)
    requires a.createdAt < b.createdAt < c.createdAt
    ensures Sorting.SortByCreatedAt([a, b, c]) == [a, b, c]
  {
    assert [a, b, c][1..] == [b, c];
    assert [b, c][1..] == [c];
    assert [c][1..] == [];
    assert Sorting.SortByCreatedAt([c]) == [c];
    assert Sorting.Insert(b, [c]) == [b, c];
    assert Sorting.Insert(a, [b, c]) == [a, b, c];
  }

  lemma UnlinesOne(a: string)
    ensures Unlines([a]) == a + "\n"
  {
    assert [a][1..] == [];
  }

  lemma UnlinesTwo(a: string, b: string)
    ensures Unlines([a, b]) == a + "\n" + b + "\n"
  {
    assert [a, b][1..] == [b];
    UnlinesOne(b);
  }

  lemma UnlinesThree(a: string, b: string, c: string)
    ensures Unlines([a, b, c]) == a + "\n" + b + "\n" + c + "\n"
  {
    assert [a, b, c][1..] == [b, c];
    UnlinesTwo(b, c);
  }

  lemma ListedRules()
    ensures RuleOf("WatchEvent") == Starred
    ensures RuleOf("ForkEvent") == Forked
    ensures RuleOf("CommitCommentEvent") == CommentedCommit
    ensures RuleOf("PushEvent") == Pushed
  {
  }

  lemma UnlistedRule()
    ensures RuleOf("StarEvent") == Unlisted
  {
  }

  lemma NoEvents()
    ensures Summarize([]) == "Specified user has no public activity"
  {
  }

  lemma AlicePushText()
    ensures CountedRecord("alice", "pushed", 3, "commits", "octo/demo")
      == "- alice pushed 3 commits (octo/demo)"
  {
  }

  lemma PushRecord(e: Event)
    requires e == MakeEvent("PushEvent", "alice", "octo/demo", 3, 0)
    ensures GroupRecords([e]) == ["- alice pushed 3 commits (octo/demo)"]
  {
    ListedRules();
    PushGroupRecord([e]);
    assert e.CommitCount() == 3;
    AlicePushText();
  }

  /** A push summary reports the commits of the pushed payload. */
  lemma SinglePush()
    ensures Summarize([MakeEvent("PushEvent", "alice", "octo/demo", 3, 0)])
      == "- alice pushed 3 commits (octo/demo)" + "\n"
  {
    var e := MakeEvent("PushEvent", "alice", "octo/demo", 3, 0);
    assert Sorting.SortByCreatedAt([e]) == [e] by {
      assert [e][1..] == [];
    }
    assert GroupEvents([e]) == [[e]] by {
      assert [e][1..] == [];
      assert Scan([e], []) == [[e]];
    }
    PushRecord(e);
    AllRecordsOne([e]);
    UnlinesOne("- alice pushed 3 commits (octo/demo)");
    SummaryFrom([e], [e], [[e]], ["- alice pushed 3 commits (octo/demo)"]);
  }

  lemma StarsSorted(w1: Event, w2: Event, w3: Event)
    requires w1.createdAt < w2.createdAt < w3.createdAt
    ensures Sorting.SortByCreatedAt([w3, w1, w2]) == [w1, w2, w3]
  {
    assert [w3, w1, w2][1..] == [w1, w2];
    assert [w1, w2][1..] == [w2];
    assert [w2][1..] == [];
    assert Sorting.SortByCreatedAt([w2]) == [w2];
    assert Sorting.Insert(w1, [w2]) == [w1, w2];
    assert [w1, w2][1..] == [w2];
    assert Sorting.Insert(w3, [w2]) == [w2, w3];
    assert Sorting.Insert(w3, [w1, w2]) == [w1, w2, w3];
  }

  lemma StarsGrouped(w1: Event, w2: Event, w3: Event)
    requires SameKey(w1, w2) && SameKey(w2, w3)
    ensures GroupEvents([w1, w2, w3]) == [[w1, w2, w3]]
  {
    assert [w1, w2, w3][1..] == [w2, w3];
    assert [w2, w3][1..] == [w3];
    assert [w3][1..] == [];
    assert Scan([w1, w2, w3], []) == [[w1, w2, w3]];
    assert [w1, w2] + [w3] == [w1, w2, w3];
    assert [w1] + [w2] == [w1, w2];
    assert Scan([w1, w2], [w3]) == Scan([w1, w2, w3], []);
    assert Scan([w1], [w2, w3]) == Scan([w1, w2], [w3]);
  }

  lemma StarRecords(w1: Event, w2: Event, w3: Event)
    requires RuleOf(w1.eventType) == Starred
    ensures GroupRecords([w1, w2, w3])
      == [EventRecord(Starred, w1), EventRecord(Starred, w2), EventRecord(Starred, w3)]
  {
    assert [w1, w2, w3][1..] == [w2, w3];
    assert [w2, w3][1..] == [w3];
    assert [w3][1..] == [];
  }

  lemma StarLine(w: Event, repo: string)
    requires repo in ["r1", "r2", "r3"]
    requires w == MakeEvent("WatchEvent", "bob", repo, 0, w.createdAt)
    ensures EventRecord(Starred, w) == "- bob starred " + repo
  {
  }

  /** A solver hint, not a property: the literal joins `ThreeStars` needs,
      kept apart so that its larger proof context does not unfold them. */
  lemma StarText()
    ensures "- bob starred " + "r1" == "- bob starred r1"
    ensures "- bob starred " + "r2" == "- bob starred r2"
    ensures "- bob starred " + "r3" == "- bob starred r3"
  {
  }

  /** Stars are printed one line per event, oldest first. */
  lemma ThreeStars(w1: Event, w2: Event, w3: Event)
    requires w1 == MakeEvent("WatchEvent", "bob", "r1", 0, 10)
    requires w2 == MakeEvent("WatchEvent", "bob", "r2", 0, 20)
    requires w3 == MakeEvent("WatchEvent", "bob", "r3", 0, 30)
    ensures Summarize([w3, w1, w2]) == "- bob starred r1" + "\n" + "- bob starred r2" + "\n" + "- bob starred r3" + "\n"
  {
    var records := [
      EventRecord(Starred, w1), EventRecord(Starred, w2), EventRecord(Starred, w3)];
    assert AllRecords([[w1, w2, w3]]) == records by {
      ListedRules();
      AllRecordsOne([w1, w2, w3]);
      StarRecords(w1, w2, w3);
    }
    assert Summarize([w3, w1, w2]) == Unlines(records) by {
      StarsSorted(w1, w2, w3);
      StarsGrouped(w1, w2, w3);
      SummaryFrom([w3, w1, w2], [w1, w2, w3], [[w1, w2, w3]], records);
    }
    assert Unlines(records) == "- bob starred r1" + "\n" + "- bob starred r2" + "\n" + "- bob starred r3" + "\n" by {
      StarLine(w1, "r1");
      StarLine(w2, "r2");
      StarLine(w3, "r3");
      StarText();
      UnlinesThree(records[0], records[1], records[2]);
    }
  }

  lemma CommentsThenForkGroups(c1: Event, c2: Event, f: Event)
    requires SameKey(c1, c2) && !SameKey(c2, f)
    ensures GroupEvents([c1, c2, f]) == [[c1, c2], [f]]
  {
    assert [c1, c2, f][1..] == [c2, f];
    assert [c2, f][1..] == [f];
    assert [f][1..] == [];
    assert [c1] + [c2] == [c1, c2];
    assert Scan([f], []) == [[f]];
    assert Scan([c1, c2], [f]) == [[c1, c2]] + Scan([f], []);
    assert Scan([c1], [c2, f]) == Scan([c1, c2], [f]);
  }

  /** A commit-comment group prints one record counting its events. */
  lemma CommentGroupRecord(g: seq<Event>)
    requires |g| > 0 && RuleOf(g[0].eventType) == CommentedCommit
    ensures GroupRecords(g) == [CountedRecord(g[0].Login(), "commented commit", |g|, "times", g[0].repo.name)]
  {
  }

  /** A push group prints one record counting its first event's commits. */
  lemma PushGroupRecord(g: seq<Event>)
    requires |g| > 0 && RuleOf(g[0].eventType) == Pushed
    ensures GroupRecords(g) == [CountedRecord(g[0].Login(), "pushed", g[0].CommitCount(), "commits", g[0].repo.name)]
  {
  }

  lemma ForkRecord(f: Event)
    requires RuleOf(f.eventType) == Forked
    ensures GroupRecords([f]) == ["- " + f.Login() + " " + ("forked " + f.repo.name)]
  {
    assert [f][1..] == [];
  }

  lemma CommentsRecordText()
    ensures CountedRecord("carol", "commented commit", 2, "times", "x/y")
      == "- carol commented commit 2 times (x/y)"
  {
  }

  /** A solver hint, not a property: the literal join `CommentsThenFork`
      needs, kept apart for the same reason as `StarText`. */
  lemma ForkRecordText()
    ensures "- " + "carol" + " " + ("forked " + "x/y") == "- carol forked x/y"
  {
  }

  /** A change of type ends a run even for the same actor and repository. */
  lemma CommentsThenFork(c1: Event, c2: Event, f: Event)
    requires c1 == MakeEvent("CommitCommentEvent", "carol", "x/y", 0, 1)
    requires c2 == MakeEvent("CommitCommentEvent", "carol", "x/y", 0, 2)
    requires f == MakeEvent("ForkEvent", "carol", "x/y", 0, 3)
    ensures Summarize([c1, c2, f]) == "- carol commented commit 2 times (x/y)" + "\n" + "- carol forked x/y" + "\n"
  {
    var records := GroupRecords([c1, c2]) + GroupRecords([f]);
    assert Summarize([c1, c2, f]) == Unlines(records) by {
      SortedThree(c1, c2, f);
      CommentsThenForkGroups(c1, c2, f);
      AllRecordsTwo([c1, c2], [f]);
      SummaryFrom([c1, c2, f], [c1, c2, f], [[c1, c2], [f]], records);
    }
    assert Unlines(records) == "- carol commented commit 2 times (x/y)" + "\n" + "- carol forked x/y" + "\n" by {
      ListedRules();
      CommentGroupRecord([c1, c2]);
      CommentsRecordText();
      ForkRecord(f);
      ForkRecordText();
      UnlinesTwo(records[0], records[1]);
    }
  }

  lemma InterruptedGroups(p1: Event, x: Event, p2: Event)
    requires !SameKey(p1, x) && !SameKey(x, p2)
    ensures GroupEvents([p1, x, p2]) == [[p1], [x], [p2]]
  {
    assert [p1, x, p2][1..] == [x, p2];
    assert [x, p2][1..] == [p2];
    assert [p2][1..] == [];
    assert Scan([p2], []) == [[p2]];
    assert Scan([x], [p2]) == [[x]] + [[p2]];
    assert Scan([p1], [x, p2]) == [[p1]] + [[x], [p2]];
  }

  lemma DanPushOneText()
    ensures CountedRecord("dan", "pushed", 1, "commits", "d/e") == "- dan pushed 1 commits (d/e)"
  {
  }

  lemma DanPushTwoText()
    ensures CountedRecord("dan", "pushed", 2, "commits", "d/e") == "- dan pushed 2 commits (d/e)"
  {
  }

  /** An event of an unlisted type prints nothing but still ends the run it
      interrupts: the two pushes around it are summarised separately. */
  lemma UnlistedTypeSplitsRun(p1: Event, x: Event, p2: Event)
    requires p1 == MakeEvent("PushEvent", "dan", "d/e", 1, 1)
    requires x == MakeEvent("StarEvent", "dan", "d/e", 0, 2)
    requires p2 == MakeEvent("PushEvent", "dan", "d/e", 2, 3)
    ensures |GroupEvents([p1, x, p2])| == 3
    ensures Summarize([p1, x, p2]) == "- dan pushed 1 commits (d/e)" + "\n" + "- dan pushed 2 commits (d/e)" + "\n"
  {
    InterruptedGroups(p1, x, p2);
    var r1 := CountedRecord("dan", "pushed", 1, "commits", "d/e");
    var r2 := CountedRecord("dan", "pushed", 2, "commits", "d/e");
    assert AllRecords([[p1], [x], [p2]]) == [r1, r2] by {
      AllRecordsThree([p1], [x], [p2]);
      ListedRules();
      UnlistedRule();
      PushGroupRecord([p1]);
      PushGroupRecord([p2]);
      assert p1.CommitCount() == 1 && p2.CommitCount() == 2;
      assert GroupRecords([x]) == [];
    }
    assert Summarize([p1, x, p2]) == Unlines([r1, r2]) by {
      SortedThree(p1, x, p2);
      SummaryFrom([p1, x, p2], [p1, x, p2], [[p1], [x], [p2]], [r1, r2]);
    }
    assert Unlines([r1, r2]) == "- dan pushed 1 commits (d/e)" + "\n" + "- dan pushed 2 commits (d/e)" + "\n" by {
      DanPushOneText();
      DanPushTwoText();
      UnlinesTwo(r1, r2);
    }
  }
}

=== FILE: sorting.dfy ===
/** Ordering the fetched events by creation time (the `sort.Slice` call in
    `GetSortedEvents`, main.go). The comparator is "created strictly before",
    and `sort.Slice` is not stable, so all that is promised is a
    non-decreasing permutation; events with equal timestamps may come out in
    any relative order. */
module Sorting {
  import opened Entities

  /** Creation times never decrease along the sequence. */
  predicate SortedByTime(s: seq<Event>) {
    forall i, j :: 0 <= i < j < |s| ==> s[i].createdAt <= s[j].createdAt
  }

  /** The admissible outcomes of sorting `input`. */
  predicate IsSortedPermutation(input: seq<Event>, output: seq<Event>) {
    multiset(output) == multiset(input) && SortedByTime(output)
  }

  /** The comparator handed to `sort.Slice`: `a` was created before `b`. */
  predicate Before(a: Event, b: Event) {
    a.createdAt < b.createdAt
  }

  /** Prepending an event no later than any other keeps a sequence sorted. */
  lemma ConsSorted(x: Event, s: seq<Event>)
    requires SortedByTime(s)
    requires forall i :: 0 <= i < |s| ==> x.createdAt <= s[i].createdAt
    ensures SortedByTime([x] + s)
  {
  }

  /** Inserts `e` into sorted `s`, ahead of every event not created before it. */
  function Insert(e: Event, s: seq<Event>): (r: seq<Event>)
    requires SortedByTime(s)
    ensures multiset(r) == multiset(s) + multiset{e}
    ensures SortedByTime(r)
    ensures |r| > 0 && (r[0] == e || (|s| > 0 && r[0] == s[0]))
  {
    if |s| == 0 || !Before(s[0], e) then
      ConsSorted(e, s);
      [e] + s
    else
      var tail := Insert(e, s[1..]);
      assert s == [s[0]] + s[1..];
      forall i | 0 <= i < |tail|
        ensures s[0].createdAt <= tail[i].createdAt
      {
        assert tail[i] in multiset(s[1..]) + multiset{e};
      }
      ConsSorted(s[0], tail);
      [s[0]] + tail
  }

  /** One admissible outcome of the sort: insertion sort. Which order it
      gives to equal timestamps is not part of the model's promise. */
  function SortByCreatedAt(events: seq<Event>): (r: seq<Event>)
    ensures IsSortedPermutation(events, r)
  {
    if |events| == 0 then []
    else
      assert events == [events[0]] + events[1..];
      Insert(events[0], SortByCreatedAt(events[1..]))
  }

  /** Removing one element keeps a sequence sorted. */
  lemma SortedWithout(s: seq<Event>, k: nat)
    requires SortedByTime(s) && k < |s|
    ensures SortedByTime(s[..k] + s[k + 1..])
  {
    var t := s[..k] + s[k + 1..];
    assert forall i :: 0 <= i < |t| ==> t[i] == if i < k then s[i] else s[i + 1];
  }

  /** Sorted permutations of each other start with the same timestamp. */
  lemma HeadsShareTime(a: seq<Event>, b: seq<Event>)
    requires SortedByTime(a) && SortedByTime(b) && multiset(a) == multiset(b)
    requires |a| > 0
    ensures |b| > 0 && a[0].createdAt == b[0].createdAt
  {
    assert a[0] in multiset(b);
    var k :| 0 <= k < |b| && b[k] == a[0];
    assert b[0] in multiset(a);
    var m :| 0 <= m < |a| && a[m] == b[0];
    assert a[0].createdAt <= a[m].createdAt;
    assert b[0].createdAt <= b[k].createdAt;
  }

  lemma RemoveAt(s: seq<Event>, k: nat, s': seq<Event>)
    requires k < |s| && s' == s[..k] + s[k + 1..]
    ensures multiset(s') == multiset(s) - multiset{s[k]}
  {
    assert s == s[..k] + [s[k]] + s[k + 1..];
  }

  /** Dropping an element that carries the first timestamp of a sorted
      sequence shifts the remaining timestamps left by one. */
  lemma DropHeadTime(b: seq<Event>, k: nat, b': seq<Event>)
    requires SortedByTime(b) && k < |b| && b[k].createdAt == b[0].createdAt
    requires b' == b[..k] + b[k + 1..]
    ensures |b'| == |b| - 1
    ensures forall i :: 0 <= i < |b'| ==> b'[i].createdAt == b[i + 1].createdAt
  {
    forall i | 0 <= i < |b'|
      ensures b'[i].createdAt == b[i + 1].createdAt
    {
      if i < k {
        assert b'[i] == b[i];
        assert b[0].createdAt <= b[i].createdAt <= b[i + 1].createdAt <= b[k].createdAt;
      } else {
        assert b'[i] == b[i + 1];
      }
    }
  }

  /** Equal timestamps at the head and, shifted by one, in the tails give
      equal timestamps everywhere. */
  lemma ConsTimes(a: seq<Event>, b: seq<Event>, b': seq<Event>)
    requires |a| == |b| > 0 && |b'| == |b| - 1
    requires a[0].createdAt == b[0].createdAt
    requires forall j :: 0 <= j < |b'| ==> a[1..][j].createdAt == b'[j].createdAt
    requires forall j :: 0 <= j < |b'| ==> b'[j].createdAt == b[j + 1].createdAt
    ensures forall i :: 0 <= i < |a| ==> a[i].createdAt == b[i].createdAt
  {
    forall i | 1 <= i < |a|
      ensures a[i].createdAt == b[i].createdAt
    {
      assert a[i] == a[1..][i - 1];
    }
  }

  /** Every admissible outcome carries the same timestamp at every position:
      instability can only reorder events that share a creation time. */
  lemma {:induction false} SortedPermutationsAgreeOnTimes(a: seq<Event>, b: seq<Event>)
    requires SortedByTime(a) && SortedByTime(b) && multiset(a) == multiset(b)
    ensures |a| == |b|
    ensures forall i :: 0 <= i < |a| ==> a[i].createdAt == b[i].createdAt
    decreases |a|
  {
    assert |a| == |multiset(a)| == |multiset(b)| == |b|;
    if |a| > 0 {
      HeadsShareTime(a, b);
      var k := IndexOf(b, a[0]);
      var b' := b[..k] + b[k + 1..];
      RemoveAt(b, k, b');
      RemoveAt(a, 0, a[1..]);
      SortedWithout(b, k);
      SortedWithout(a, 0);
      SortedPermutationsAgreeOnTimes(a[1..], b');
      DropHeadTime(b, k, b');
      ConsTimes(a, b, b');
    }
  }

  /** A position at which `x` occurs in `s`. */
  lemma IndexOf(s: seq<Event>, x: Event) returns (k: nat)
    requires x in multiset(s)
    ensures k < |s| && s[k] == x
  {
    k :| 0 <= k < |s| && s[k] == x;
  }

  /** Events that share a creation time are identical. */
  predicate TimesIdentify(s: seq<Event>) {
    forall x, y :: x in s && y in s && x.createdAt == y.createdAt ==> x == y
  }

  /** When no two different events share a creation time, the sort has
      exactly one admissible outcome, whatever the tie-breaking. */
  lemma SortedPermutationUnique(input: seq<Event>, a: seq<Event>, b: seq<Event>)
    requires TimesIdentify(input)
    requires IsSortedPermutation(input, a) && IsSortedPermutation(input, b)
    ensures a == b
  {
    SortedPermutationsAgreeOnTimes(a, b);
    forall i | 0 <= i < |a|
      ensures a[i] == b[i]
    {
      assert a[i] in multiset(input) && b[i] in multiset(input);
    }
  }

  /** The model's sort is the unique outcome when times identify events. */
  lemma SortByCreatedAtCanonical(events: seq<Event>, sorted: seq<Event>)
    requires TimesIdentify(events) && IsSortedPermutation(events, sorted)
    ensures sorted == SortByCreatedAt(events)
  {
    SortedPermutationUnique(events, sorted, SortByCreatedAt(events));
  }
}
